=== FILE: README.md ===
# Task console: status rules, filters, counters and the create-task handler

The task console is a React dashboard over a task-execution backend. A *task*
is a named, owned shell command with a chronological list of *executions*
(optional start time, end time and output). Almost all of the console is
rendering. This project models the pure decision rules inside it, written as
Dafny datatypes and functions, and proves what they guarantee:

- how a task is classified from its last execution: Idle, Running, Failed or Success.
  The status tag and the status icon both follow this classification;
- the status filter of the task table, and the three dashboard counters
  (total, active, failed);
- the abbreviation of long commands in the table;
- the history drawer: the open and close handlers, and its newest-first list of execution cards;
- the create-task form: its required-field rules, and the submit handler.
  The handler screens out unsafe commands, calls the backend, and then either
  resets the form and notifies the caller or keeps the values.

Modules:

| file | module | models |
|---|---|---|
| wrappers.dfy | `Wrappers` | `Option`, standing for `undefined`/`null` |
| js_semantics.dfy | `JsSemantics` | `slice` with negative indices, out-of-range `[i]`, `filter`, `reverse`, `x \|\| d` on optional strings |
| text_search.dfy | `TextSearch` | `String.prototype.includes` and `/error/i.test` |
| api_types.dfy | `ApiTypes` | `TaskExecution`, `Task`, `TaskInput` |
| task_status.dfy | `TaskStatus` | `getStatusTag`, `getStatusIcon` and the classification they share |
| task_filter.dfy | `TaskFilter` | `getFilteredTasks`, `totalTasks`, `activeTasks`, `failedTasks` |
| command_format.dfy | `CommandFormat` | `formatCommand` |
| history_drawer.dfy | `HistoryDrawer` | `showHistoryDrawer`, `closeHistoryDrawer`, the drawer body |
| create_task_form.dfy | `CreateTaskForm` | the required rules and `handleSubmit` |

Modelling choices:

- A task whose `taskExecutions` field is missing is represented with an empty
  sequence. That is what the dashboard's `taskExecutions?.…` uses amount to.
- JavaScript truthiness is spelled out. An end time that is absent or `""`
  means "not ended". An absent or empty output reads as `""`.
- `/error/i` has no `u` flag, so it folds case by upper-casing, and no
  non-ASCII character folds onto an ASCII letter. The regular expression
  therefore matches exactly where an ASCII-case-folded substring search
  finds "error" (`TextSearch.TestIgnoringCase`).
- `handleSubmit` is modelled as the list of effects it performs:
  - raising and lowering `submitting`;
  - toasts;
  - the `createOrUpdateTask` request;
  - `form.resetFields()`;
  - `onFormSubmit()`.

  The backend's answer (resolve or reject) is an input.
  `CreateTaskForm.Replay` applies the effects to the observable form state.
  On the unsafe path the flag is lowered twice: once before the early
  `return`, and once more by the `finally` block.

## Model

| member | source | states |
|---|---|---|
| `TaskStatus.LastExecution` | src/components/TaskList.tsx:174 | `taskExecutions?.slice(-1)[0]` is undefined exactly for an empty history, and otherwise is the final execution |
| `TaskStatus.Classify` | src/components/TaskList.tsx:49-55 | the decision chain (no execution, then a falsy `endTime`, then `/error/i` on `output \|\| ""`) picks a status whose defining condition holds of the execution |
| `TaskStatus.ClassificationExclusive` | src/components/TaskList.tsx:49-55 | the four status conditions are total and exclusive: a status describes an execution if and only if it is the one the chain picks |
| `TaskStatus.GetStatusTag` | src/components/TaskList.tsx:49-55 | the tag drawn (text and colour) is the tag of the execution's classification |
| `TaskStatus.GetStatusIcon` | src/components/TaskList.tsx:41-47 | the icon drawn (glyph and colour) is the icon of the execution's classification |
| `TaskStatus.TagAndIconAgree` | src/components/TaskList.tsx:41-55 | for every execution, the status read back from the tag and the status read back from the icon are the same, and both are the classification |
| `TaskStatus.UpperCaseErrorFails` | src/components/TaskList.tsx:53 | an ended run whose output has "ERROR" is Failed: the match ignores case |
| `TaskStatus.ErrorInsideWordFails` | src/components/TaskList.tsx:53 | an ended run whose output has "terrors" is Failed: the match is a plain substring |
| `TaskStatus.SplitWordSucceeds` | src/components/TaskList.tsx:53-54 | an ended run whose output is "err or" is Success |
| `TaskStatus.MissingOutputSucceeds` | src/components/TaskList.tsx:52-54 | an ended run with no output is Success |
| `TaskStatus.EmptyEndTimeIsRunning` | src/components/TaskList.tsx:51 | an empty end time is falsy, so the run is Running whatever its output |
| `TaskFilter.PassesFilterMeaning` | src/components/TaskList.tsx:173-184 | the per-branch filter callback accepts a task exactly when the filter names the task's status; any other filter value accepts every task |
| `TaskFilter.GetFilteredTasks` | src/components/TaskList.tsx:171-185 | with "all" the list comes back unchanged; every result is an order-preserving subsequence of the list holding exactly the tasks whose status the filter selects |
| `TaskFilter.GetFilteredTasksCounts` | src/components/TaskList.tsx:171-185 | the result holds every copy of each task whose status the filter selects, and no copy of any other task |
| `TaskFilter.ExactlyOneStatusFilter` | src/components/TaskList.tsx:173-184 | each task passes the filter for its own status and no other status filter |
| `TaskFilter.UnknownFilterKeepsAll` | src/components/TaskList.tsx:183 | a filter value outside the five offered ones keeps the whole list |
| `TaskFilter.StatusFiltersPartition` | src/components/TaskList.tsx:173-184 | the idle, running, success and failed results together are the task list, as a multiset |
| `TaskFilter.StatusFilterSizesSum` | src/components/TaskList.tsx:173-184 | the sizes of the four status filters' results add up to the number of tasks |
| `TaskFilter.HasExecutions` | src/components/TaskList.tsx:189 | a task counts as active exactly when its status is not Idle |
| `TaskFilter.LastRunFailed` | src/components/TaskList.tsx:190-193 | a task counts as failed exactly when its status is Failed |
| `TaskFilter.ActiveComplementsIdle` | src/components/TaskList.tsx:175-189 | the active count and the size of the idle filter's result add up to the number of tasks |
| `TaskFilter.FailedCountIsFailedFilter` | src/components/TaskList.tsx:180-193 | the tasks counted as failed are exactly the failed filter's result |
| `TaskFilter.FailedAtMostActive` | src/components/TaskList.tsx:189-193 | no more tasks count as failed than count as active |
| `TaskFilter.Summarize` | src/components/TaskList.tsx:187-193 | total is the list size; active is total minus the idle filter's size; failed is the failed filter's size; failed <= active <= total |
| `TaskFilter.SingleIdleTaskScenario` | src/components/TaskList.tsx:187-193 | one never-run task gives Total 1, Active 0, Failed 0, an Idle tag, and a place in the idle filter |
| `CommandFormat.FormatCommand` | src/components/TaskList.tsx:57 | at most 50 characters; a command of 50 or fewer comes back unchanged; a longer one becomes its first 47 characters plus "...", exactly 50 |
| `CommandFormat.FormatCommandIdempotent` | src/components/TaskList.tsx:57 | formatting an already formatted command changes nothing |
| `HistoryDrawer.ShowHistoryDrawer` | src/components/TaskList.tsx:154-157 | the drawer becomes visible with the given task selected, so visibility and selection agree |
| `HistoryDrawer.CloseHistoryDrawer` | src/components/TaskList.tsx:159-162 | from any state the drawer returns to its initial state: hidden, with nothing selected |
| `HistoryDrawer.ShowReplacesSelection` | src/components/TaskList.tsx:154-157 | opening the drawer for a second task forgets the first |
| `HistoryDrawer.CardFor` | src/components/TaskList.tsx:538-561 | a card carries its execution's status tag; it shows "Still running..." exactly when that status is Running; it shows the output when that is present and non-empty, and "(No output)" otherwise |
| `HistoryDrawer.HistoryContent` | src/components/TaskList.tsx:514-569 | nothing without a selection; the "No execution history" placeholder for a task that never ran; otherwise one card per execution, card i built from the i-th newest execution |
| `HistoryDrawer.CardsAreChronologyReversed` | src/components/TaskList.tsx:517-519 | the cards list the executions in exactly reversed order, and reversing the cards gives back the chronological history |
| `HistoryDrawer.NewestCardMatchesRowStatus` | src/components/TaskList.tsx:517-545 | the top card's tag is the tag the task's table row shows |
| `JsSemantics.Slice` | src/components/TaskList.tsx:174 | `slice(start, end)` returns `s[start..end]` for in-range bounds, and `s[len + start..]` for a negative start with no end |
| `JsSemantics.Filter` | src/components/TaskList.tsx:173-193 | `filter` keeps exactly the elements satisfying the callback, in order, as a subsequence |
| `JsSemantics.FilterMultiset` | src/components/TaskList.tsx:173-193 | `filter` keeps every copy of each accepted element and no copy of a rejected one |
| `JsSemantics.ElementAt` | src/components/TaskList.tsx:174 | `s[i]` is defined exactly for an in-range index, and is then the element at that index |
| `JsSemantics.OrElse` | src/components/TaskList.tsx:44-52 | `o \|\| d` is `o` when it is present and non-empty, and `d` when it is absent or `""` |
| `JsSemantics.Reverse` | src/components/TaskList.tsx:517-519 | element i of the reversed copy is element len-1-i of the original |
| `JsSemantics.ReverseInvolution` | src/components/TaskList.tsx:517-519 | reversing twice restores the original order |
| `TextSearch.Includes` | src/components/CreateTaskForm.tsx:20 | `includes` is true exactly when the pattern occurs at some position |
| `TextSearch.TestIgnoringCase` | src/components/TaskList.tsx:45-53 | for a pattern of ASCII letters such as "error", `/pat/i.test` is true exactly when the pattern occurs at some position, compared without ASCII case |
| `TextSearch.TestIgnoringCaseIsFoldedIncludes` | src/components/TaskList.tsx:45-53 | the case-insensitive test agrees with a case-sensitive `includes` after ASCII lower-casing both the text and the pattern |
| `CreateTaskForm.RequiredErrors` | src/components/CreateTaskForm.tsx:45-67 | a rule fails exactly for an empty field; there are no errors exactly when all three fields are filled |
| `CreateTaskForm.EmptyFieldNeverSubmits` | src/components/CreateTaskForm.tsx:42-64 | an empty name, owner or command shows field errors only: `submitting` is never raised and no request is made |
| `CreateTaskForm.IsUnsafeCommand` | src/components/CreateTaskForm.tsx:20 | a command is refused exactly when "rm ", "sudo " or "shutdown" occurs in it, case-sensitively |
| `CreateTaskForm.RmInsideWordIsUnsafe` | src/components/CreateTaskForm.tsx:20 | "farm x" is refused because it contains "rm " |
| `CreateTaskForm.UpperCaseCommandsAreAccepted` | src/components/CreateTaskForm.tsx:20 | "RM x" and "Shutdown now" pass the case-sensitive screen |
| `CreateTaskForm.TrailingSudoIsAccepted` | src/components/CreateTaskForm.tsx:20 | "echo sudo" passes, because "sudo " needs its trailing space |
| `CreateTaskForm.UnsafePathFacts` | src/components/CreateTaskForm.tsx:17-35 | the unsafe path raises `submitting` first and lowers it last, shows the unsafe error, makes no request, shows neither the success nor the failure message, and neither resets the form nor fires the callback |
| `CreateTaskForm.ResolvedPathFacts` | src/components/CreateTaskForm.tsx:17-35 | the resolved path is bracketed by the flag, makes exactly one request with the form's values, and resets and notifies once each, after the request; the flag stays raised until the request is sent |
| `CreateTaskForm.ResolvedPathReports` | src/components/CreateTaskForm.tsx:26-31 | a resolved request shows the success message, never the failure message, and only after the request is sent |
| `CreateTaskForm.RejectedPathFacts` | src/components/CreateTaskForm.tsx:17-35 | the rejected path is bracketed by the flag, makes exactly one request, and neither resets the form nor fires the callback; the flag stays raised until the request is sent |
| `CreateTaskForm.RejectedPathReports` | src/components/CreateTaskForm.tsx:26-31 | a rejected request shows the failure message, never the success message, and only after the request is sent |
| `CreateTaskForm.HandleSubmit` | src/components/CreateTaskForm.tsx:16-36 | `submitting` is raised first and lowered last on every path; the unsafe error is shown exactly for unsafe commands; an unsafe command makes no request, anything else makes exactly one; reset and callback happen once each, only after a resolved request; `submitting` stays raised until the request is sent; the success message appears exactly when a safe command's request resolves, the failure message exactly when it rejects, and either only after the request is sent |
| `CreateTaskForm.ReplayUnsafePath` | src/components/CreateTaskForm.tsx:20-34 | refusing an unsafe command leaves fields, requests and callbacks as they were, with `submitting` false |
| `CreateTaskForm.ReplayResolvedPath` | src/components/CreateTaskForm.tsx:26-34 | a resolved request is recorded, the fields go back to their initial values, the callback count rises by one, and `submitting` is false |
| `CreateTaskForm.ReplayRejectedPath` | src/components/CreateTaskForm.tsx:26-34 | a rejected request is recorded; fields and callback count stay as they were; `submitting` is false |
| `CreateTaskForm.Submit` | src/components/CreateTaskForm.tsx:16-75 | a press while `submitting` is true is swallowed by the loading button and changes nothing; a form failing its rules is untouched; once the handler runs, `submitting` ends false; unsafe commands change nothing else; a safe one sends exactly the form's values; only a resolved request resets the form and fires the callback once |

## Left out

- `src/services/api.ts` request functions (`getAllTasks`, `getTaskById`, `searchTasksByName`, `createOrUpdateTask`, `deleteTask`, `executeTask`): network I/O. Only their data shapes are modelled, and `createOrUpdateTask`'s outcome is an input to the form handler.
- `fetchTasks`, `handleSearch`, `handleDelete`, `handleExecute`: asynchronous network flows with toasts and a delayed refresh (`setTimeout(fetchTasks, 800)`). How they interleave is a matter of timing, not of stateable logic.
- `showCreateModal`, `handleCreateModalCancel`, `handleFormSubmitted`: one-line visibility toggles. The last also triggers a network refetch.
- `formatDate` and the Duration text of a history card: locale date formatting and floating-point rounding of millisecond differences.
- The `localeCompare` column sorters, pagination, the avatar initials and all JSX, antd and styling: locale collation and presentation.
- `console.error` diagnostics: they are not observable in the form state.
- `src/App.tsx` and `src/main.tsx`: page chrome and mounting.
- UTF-16: a Dafny string is a sequence of Unicode scalar values, and a JavaScript string is a sequence of UTF-16 code units. `|s|` equals JavaScript's `length` only for text inside the Basic Multilingual Plane. A character outside it counts once here but twice in JavaScript. So a command of 26 emoji has length 52 in JavaScript and is abbreviated there, while `CommandFormat.FormatCommand` keeps it whole.
- `CreateTaskForm.Submit`: the whole handler runs as one step. While the request is pending, only Cancel is disabled (CreateTaskForm.tsx:71). The three inputs stay editable, and the modal's close control stays live. Edits made during the wait are not modelled: a rejected request would keep them, and a resolved request's `resetFields()` would discard them. The only interleaving modelled is a second press of the loading submit button, which changes nothing.
- `HistoryDrawer.HistoryContent`: a selected task whose `taskExecutions` field is missing renders nothing in the source. Here such a task has an empty history and gets the "No execution history" placeholder.

=== FILE: api_types.dfy ===
/**
  The shapes the backend returns and accepts (src/services/api.ts). Timestamps
  stay the ISO strings the JSON carries. A task whose `taskExecutions` field is
  missing is represented with an empty sequence, which is how every
  `taskExecutions?.…` use in the dashboard treats it.
*/
module ApiTypes {
  import opened Wrappers

  /** One recorded run of a task's command; every field is optional. */
  datatype TaskExecution = TaskExecution(
    startTime: Option<string>,
    endTime: Option<string>,
    output: Option<string>)

  /** A named, owned shell command with its chronological execution history. */
  datatype Task = Task(
    id: string,
    name: string,
    owner: string,
    command: string,
    taskExecutions: seq<TaskExecution>)

  /** The create/update payload; an absent `id` asks for a new task. */
  datatype TaskInput = TaskInput(
    id: Option<string>,
    name: string,
    owner: string,
    command: string)
}

=== FILE: command_format.dfy ===
/** How the task table abbreviates a long shell command under the task name. */
module CommandFormat {
  import opened JsSemantics

  /** The longest command shown in full, and the part kept of a longer one. */
  const MaxShown := 50
  const KeptPrefix := 47

  /** `formatCommand(cmd)`: short commands verbatim, long ones cut to their
      first 47 characters plus "...", which is exactly 50 characters. */
  function FormatCommand(cmd: string): (r: string)
    ensures |r| <= MaxShown
    ensures |cmd| <= MaxShown ==> r == cmd
    ensures |cmd| > MaxShown ==> |r| == MaxShown && r[..KeptPrefix] == cmd[..KeptPrefix] && r[KeptPrefix..] == "..."
  {
    if |cmd| > MaxShown then Slice(cmd, 0, KeptPrefix) + "..." else cmd
  }

  /** Formatting an already formatted command changes nothing. */
  lemma FormatCommandIdempotent(cmd: string)
    ensures FormatCommand(FormatCommand(cmd)) == FormatCommand(cmd)
  {
  }
}

=== FILE: create_task_form.dfy ===
/**
  The create-task form: the required-field rules that gate submission, and
  `handleSubmit`, which screens the command for unsafe text, calls the backend
  and reports the outcome. The handler is modelled as the sequence of effects
  it performs; replaying those effects on the form's state gives the state the
  user sees afterwards. The backend's answer is an input: it either resolves or
  rejects.
*/
module CreateTaskForm {
  import opened Wrappers
  import opened ApiTypes
  import opened TextSearch

  /** The three form fields. */
  datatype Fields = Fields(name: string, owner: string, command: string)

  /** `initialValues`, which `form.resetFields()` restores. */
  const InitialValues := Fields("", "", "")

  /** The values the form passes to `onFinish`. */
  function ToInput(f: Fields): TaskInput
  {
    TaskInput(None, f.name, f.owner, f.command)
  }

  /** A failed `required` rule: the field and the message shown under it. */
  datatype FieldError = FieldError(field: string, message: string)

  const NameRequired := FieldError("name", "Please enter the task name!")
  const OwnerRequired := FieldError("owner", "Please enter the owner name!")
  const CommandRequired := FieldError("command", "Please enter the command to execute!")

  /** Every required field holds something. */
  predicate Filled(f: Fields)
  {
    f.name != "" && f.owner != "" && f.command != ""
  }

  /** The three `required: true` rules, in field order. A required string
      field fails only when it is empty; whitespace passes. */
  function RequiredErrors(f: Fields): (errs: seq<FieldError>)
    ensures |errs| == 0 <==> Filled(f)
    ensures NameRequired in errs <==> f.name == ""
    ensures OwnerRequired in errs <==> f.owner == ""
    ensures CommandRequired in errs <==> f.command == ""
  {
    (if f.name == "" then [NameRequired] else [])
    + (if f.owner == "" then [OwnerRequired] else [])
    + (if f.command == "" then [CommandRequired] else [])
  }

  /** The client-side safety screen: case-sensitive substring tests. */
  function IsUnsafeCommand(cmd: string): (r: bool)
    ensures r <==> Contains(cmd, "rm ") || Contains(cmd, "sudo ") || Contains(cmd, "shutdown")
  {
    Includes(cmd, "rm ") || Includes(cmd, "sudo ") || Includes(cmd, "shutdown")
  }

  /** The screen matches inside words: "farm x" contains "rm ". */
  lemma RmInsideWordIsUnsafe()
    ensures IsUnsafeCommand("farm x")
  {
    assert OccursAt("farm x", "rm ", 2);
  }

  /** The screen is case-sensitive: upper-case variants pass. */
  lemma UpperCaseCommandsAreAccepted()
    ensures !IsUnsafeCommand("RM x")
    ensures !IsUnsafeCommand("Shutdown now")
  {
    FirstCharAbsent("RM x", "rm ");
    FirstCharAbsent("RM x", "sudo ");
    FirstCharAbsent("RM x", "shutdown");
    FirstCharAbsent("Shutdown now", "rm ");
    FirstCharAbsent("Shutdown now", "sudo ");
    FirstCharAbsent("Shutdown now", "shutdown");
  }

  /** "sudo" needs its trailing space: a command ending in "sudo" passes. */
  lemma TrailingSudoIsAccepted()
    ensures !IsUnsafeCommand("echo sudo")
  {
    var c := "echo sudo";
    FirstCharAbsent(c, "rm ");
    forall i: nat | i + 5 <= |c|
      ensures !OccursAt(c, "sudo ", i)
    {
      assert c[i..i + 5][0] == c[i];
    }
    forall i: nat | i + 8 <= |c|
      ensures !OccursAt(c, "shutdown", i)
    {
      assert c[i..i + 8][0] == c[i];
    }
  }

  /** What `createOrUpdateTask` does with the request. */
  datatype BackendOutcome = Resolves | Rejects

  /** One observable step of the submit flow. */
  datatype Effect =
    | SetSubmitting(on: bool)
    | ShowError(text: string)
    | ShowSuccess(text: string)
    | CreateOrUpdate(input: TaskInput)
    | ResetFields
    | NotifySubmitted
    | ShowFieldErrors(errors: seq<FieldError>)

  const UnsafeMessage := "Unsafe command detected! Please avoid commands like rm, sudo, shutdown."
  const SuccessMessage := "Task created successfully!"
  const FailureMessage := "Failed to create task. Please try again."

  /** The effects of `handleSubmit` on an unsafe command: the flag is cleared
      twice, once before the early `return` and once more by `finally`. */
  function UnsafePath(): (trace: seq<Effect>)
  {
    [SetSubmitting(true), ShowError(UnsafeMessage), SetSubmitting(false), SetSubmitting(false)]
  }

  /** The effects of `handleSubmit` when the request is sent. */
  function BackendPath(values: TaskInput, backend: BackendOutcome): (trace: seq<Effect>)
  {
    match backend
    case Resolves =>
      [SetSubmitting(true), CreateOrUpdate(values), ShowSuccess(SuccessMessage), ResetFields, NotifySubmitted, SetSubmitting(false)]
    case Rejects =>
      [SetSubmitting(true), CreateOrUpdate(values), ShowError(FailureMessage), SetSubmitting(false)]
  }

  /** The flag is raised first and lowered last. */
  predicate Bracketed(trace: seq<Effect>)
  {
    |trace| >= 2 && trace[0] == SetSubmitting(true) && trace[|trace| - 1] == SetSubmitting(false)
  }

  /** Every request in the trace carries `values`; there are `n` of them. */
  ghost predicate SendsRequests(trace: seq<Effect>, values: TaskInput, n: nat)
  {
    && multiset(trace)[CreateOrUpdate(values)] == n
    && forall e :: e in trace && e.CreateOrUpdate? ==> e == CreateOrUpdate(values)
  }

  /** The form is reset and the callback fires `n` times each, and neither
      happens before the request has been answered. */
  ghost predicate CompletesSubmission(trace: seq<Effect>, n: nat)
  {
    && multiset(trace)[ResetFields] == n
    && multiset(trace)[NotifySubmitted] == n
    && forall i, j :: 0 <= i < |trace| && 0 <= j < |trace| && trace[i].CreateOrUpdate? && (trace[j] == NotifySubmitted || trace[j] == ResetFields) ==> i < j
  }

  /** The flag stays raised from the start of the trace until every request
      has been sent. */
  ghost predicate HeldThroughRequest(trace: seq<Effect>)
  {
    forall i, k :: 0 < k <= i < |trace| && trace[i].CreateOrUpdate? ==> trace[k] != SetSubmitting(false)
  }

  /** The outcome toasts come only after a request has been sent. */
  ghost predicate ReportsAfterRequest(trace: seq<Effect>)
  {
    forall i, j ::
      (0 <= i < |trace| && 0 <= j < |trace| && trace[i].CreateOrUpdate?
       && (trace[j].ShowSuccess? || trace[j] == ShowError(FailureMessage))) ==> i < j
  }

  lemma UnsafePathFacts(values: TaskInput)
    ensures Bracketed(UnsafePath()) && ShowError(UnsafeMessage) in UnsafePath()
    ensures SendsRequests(UnsafePath(), values, 0) && CompletesSubmission(UnsafePath(), 0)
    ensures ShowSuccess(SuccessMessage) !in UnsafePath() && ShowError(FailureMessage) !in UnsafePath()
  {
    UnsafeMessageDiffers();
  }

  lemma UnsafeMessageDiffers()
    ensures UnsafeMessage != FailureMessage && UnsafeMessage != SuccessMessage
  {
    assert |UnsafeMessage| != |FailureMessage|;
    assert |UnsafeMessage| != |SuccessMessage|;
  }

  lemma ResolvedPathFacts(values: TaskInput)
    ensures Bracketed(BackendPath(values, Resolves)) && ShowError(UnsafeMessage) !in BackendPath(values, Resolves)
    ensures SendsRequests(BackendPath(values, Resolves), values, 1)
    ensures CompletesSubmission(BackendPath(values, Resolves), 1)
    ensures HeldThroughRequest(BackendPath(values, Resolves))
  {
    UnsafeMessageDiffers();
  }

  /** A resolved request is reported as a success, and only after it is sent. */
  lemma ResolvedPathReports(values: TaskInput)
    ensures ShowSuccess(SuccessMessage) in BackendPath(values, Resolves)
    ensures ShowError(FailureMessage) !in BackendPath(values, Resolves)
    ensures ReportsAfterRequest(BackendPath(values, Resolves))
  {
  }

  lemma RejectedPathFacts(values: TaskInput)
    ensures Bracketed(BackendPath(values, Rejects)) && ShowError(UnsafeMessage) !in BackendPath(values, Rejects)
    ensures SendsRequests(BackendPath(values, Rejects), values, 1)
    ensures CompletesSubmission(BackendPath(values, Rejects), 0)
    ensures HeldThroughRequest(BackendPath(values, Rejects))
  {
    UnsafeMessageDiffers();
  }

  /** A rejected request is reported as a failure, and only after it is sent. */
  lemma RejectedPathReports(values: TaskInput)
    ensures ShowError(FailureMessage) in BackendPath(values, Rejects)
    ensures ShowSuccess(SuccessMessage) !in BackendPath(values, Rejects)
    ensures ReportsAfterRequest(BackendPath(values, Rejects))
  {
  }

  /** `handleSubmit(values)`: an unsafe command is refused before any request
      is made; otherwise exactly one request is made, and only a resolved one
      resets the form and calls `onFormSubmit`, once. The outcome is reported,
      after the request, with the success message exactly when the request
      resolves and the failure message exactly when it rejects. The `submitting` flag stays raised
      until the request is sent, and it is lowered on every path. */
  function HandleSubmit(values: TaskInput, backend: BackendOutcome): (trace: seq<Effect>)
    ensures Bracketed(trace)
    ensures ShowError(UnsafeMessage) in trace <==> IsUnsafeCommand(values.command)
    ensures SendsRequests(trace, values, if IsUnsafeCommand(values.command) then 0 else 1)
    ensures CompletesSubmission(trace, if !IsUnsafeCommand(values.command) && backend.Resolves? then 1 else 0)
    ensures HeldThroughRequest(trace)
    ensures ShowSuccess(SuccessMessage) in trace <==> !IsUnsafeCommand(values.command) && backend.Resolves?
    ensures ShowError(FailureMessage) in trace <==> !IsUnsafeCommand(values.command) && backend.Rejects?
    ensures ReportsAfterRequest(trace)
  {
    if IsUnsafeCommand(values.command) then
      UnsafePathFacts(values);
      UnsafePath()
    else
      if backend.Resolves? then
        ResolvedPathFacts(values);
        ResolvedPathReports(values);
        BackendPath(values, backend)
      else
        RejectedPathFacts(values);
        RejectedPathReports(values);
        BackendPath(values, backend)
  }

  /** The form's `onFinish` path: antd runs the field rules first and calls the
      handler only when all of them pass. */
  function SubmitTrace(f: Fields, backend: BackendOutcome): seq<Effect>
  {
    var errs := RequiredErrors(f);
    if |errs| > 0 then [ShowFieldErrors(errs)] else HandleSubmit(ToInput(f), backend)
  }

  /** An empty name, owner or command never reaches the handler: no flag is
      set and no request is made. */
  lemma EmptyFieldNeverSubmits(f: Fields, backend: BackendOutcome)
    requires f.name == "" || f.owner == "" || f.command == ""
    ensures SubmitTrace(f, backend) == [ShowFieldErrors(RequiredErrors(f))]
    ensures forall e :: e in SubmitTrace(f, backend) ==> !e.SetSubmitting? && !e.CreateOrUpdate?
  {
  }

  /** What the user can observe of the form: its field values, the
      `submitting` flag, the requests sent to the backend, and how many times
      the `onFormSubmit` callback ran. */
  datatype FormState = FormState(
    fields: Fields,
    submitting: bool,
    requests: seq<TaskInput>,
    callbacks: nat)

  function Apply(s: FormState, e: Effect): FormState
  {
    match e
    case SetSubmitting(on) => s.(submitting := on)
    case CreateOrUpdate(input) => s.(requests := s.requests + [input])
    case ResetFields => s.(fields := InitialValues)
    case NotifySubmitted => s.(callbacks := s.callbacks + 1)
    case ShowError(_) => s
    case ShowSuccess(_) => s
    case ShowFieldErrors(_) => s
  }

  function Replay(s: FormState, trace: seq<Effect>): FormState
    decreases |trace|
  {
    if |trace| == 0 then s else Replay(Apply(s, trace[0]), trace[1..])
  }

  /** Replaying a trace one effect at a time. */
  lemma ReplayCons(s: FormState, e: Effect, rest: seq<Effect>)
    ensures Replay(s, [e] + rest) == Replay(Apply(s, e), rest)
  {
    assert ([e] + rest)[1..] == rest;
  }

  /** Refusing an unsafe command leaves the form exactly as it was, apart
      from the flag, which ends lowered. */
  lemma ReplayUnsafePath(s: FormState)
    ensures Replay(s, UnsafePath()) == s.(submitting := false)
  {
  }

  /** A resolved request is recorded, the fields are reset, the callback has
      run once more and the flag ends lowered. */
  lemma ReplayResolvedPath(s: FormState, values: TaskInput)
    ensures Replay(s, BackendPath(values, Resolves))
         == FormState(InitialValues, false, s.requests + [values], s.callbacks + 1)
  {
    var e1, e2, e3 := SetSubmitting(true), CreateOrUpdate(values), ShowSuccess(SuccessMessage);
    var e4, e5, e6 := ResetFields, NotifySubmitted, SetSubmitting(false);
    var s1 := Apply(s, e1);
    var s2 := Apply(s1, e2);
    var s3 := Apply(s2, e3);
    var s4 := Apply(s3, e4);
    var s5 := Apply(s4, e5);
    assert BackendPath(values, Resolves) == [e1] + ([e2] + ([e3] + ([e4] + ([e5] + ([e6] + [])))));
    ReplayCons(s, e1, [e2] + ([e3] + ([e4] + ([e5] + ([e6] + [])))));
    ReplayCons(s1, e2, [e3] + ([e4] + ([e5] + ([e6] + []))));
    ReplayCons(s2, e3, [e4] + ([e5] + ([e6] + [])));
    ReplayCons(s3, e4, [e5] + ([e6] + []));
    ReplayCons(s4, e5, [e6] + []);
    ReplayCons(s5, e6, []);
  }

  /** A rejected request is recorded, but the fields and the callback count
      stay as they were; the flag ends lowered. */
  lemma ReplayRejectedPath(s: FormState, values: TaskInput)
    ensures Replay(s, BackendPath(values, Rejects))
         == FormState(s.fields, false, s.requests + [values], s.callbacks)
  {
    var e1, e2, e3 := SetSubmitting(true), CreateOrUpdate(values), ShowError(FailureMessage);
    var e4 := SetSubmitting(false);
    var s1 := Apply(s, e1);
    var s2 := Apply(s1, e2);
    var s3 := Apply(s2, e3);
    assert BackendPath(values, Rejects) == [e1] + ([e2] + ([e3] + ([e4] + [])));
    ReplayCons(s, e1, [e2] + ([e3] + ([e4] + [])));
    ReplayCons(s1, e2, [e3] + ([e4] + []));
    ReplayCons(s2, e3, [e4] + []);
    ReplayCons(s3, e4, []);
  }

  /** A form failing its rules never reaches the handler and is left as it is. */
  lemma SubmitBlockedByRules(s: FormState, backend: BackendOutcome)
    requires !Filled(s.fields)
    ensures Replay(s, SubmitTrace(s.fields, backend)) == s
  {
    var errs := RequiredErrors(s.fields);
    assert SubmitTrace(s.fields, backend) == [ShowFieldErrors(errs)] + [];
    ReplayCons(s, ShowFieldErrors(errs), []);
  }

  lemma SubmitUnsafe(s: FormState, backend: BackendOutcome)
    requires Filled(s.fields) && IsUnsafeCommand(s.fields.command)
    ensures Replay(s, SubmitTrace(s.fields, backend)) == s.(submitting := false)
  {
    assert SubmitTrace(s.fields, backend) == UnsafePath();
    ReplayUnsafePath(s);
  }

  lemma SubmitSafe(s: FormState, backend: BackendOutcome)
    requires Filled(s.fields) && !IsUnsafeCommand(s.fields.command)
    ensures Replay(s, SubmitTrace(s.fields, backend))
      == if backend.Resolves? then FormState(InitialValues, false, s.requests + [ToInput(s.fields)], s.callbacks + 1)
         else FormState(s.fields, false, s.requests + [ToInput(s.fields)], s.callbacks)
  {
    assert SubmitTrace(s.fields, backend) == BackendPath(ToInput(s.fields), backend);
    if backend.Resolves? {
      ReplayResolvedPath(s, ToInput(s.fields));
    } else {
      ReplayRejectedPath(s, ToInput(s.fields));
    }
  }

  /** Pressing "Create Task" with the form in state `s`. While a request is in
      flight the button is loading and swallows the press. Otherwise a form
      that fails its rules is left untouched; once the handler runs,
      `submitting` ends false whatever happens, and only a resolved request
      clears the fields and calls `onFormSubmit`. */
  function Submit(s: FormState, backend: BackendOutcome): (r: FormState)
    ensures s.submitting ==> r == s
    ensures !Filled(s.fields) ==> r == s
    ensures !s.submitting && Filled(s.fields) ==> !r.submitting
    ensures Filled(s.fields) && IsUnsafeCommand(s.fields.command) ==>
      r.requests == s.requests && r.fields == s.fields && r.callbacks == s.callbacks
    ensures !s.submitting && Filled(s.fields) && !IsUnsafeCommand(s.fields.command) ==>
      r.requests == s.requests + [ToInput(s.fields)]
    ensures !s.submitting && Filled(s.fields) && !IsUnsafeCommand(s.fields.command) && backend.Resolves? ==>
      r.fields == InitialValues && r.callbacks == s.callbacks + 1
    ensures backend.Rejects? ==> r.fields == s.fields && r.callbacks == s.callbacks
  {
    if s.submitting then
      s
    else if !Filled(s.fields) then
      SubmitBlockedByRules(s, backend);
      Replay(s, SubmitTrace(s.fields, backend))
    else if IsUnsafeCommand(s.fields.command) then
      SubmitUnsafe(s, backend);
      Replay(s, SubmitTrace(s.fields, backend))
    else
      SubmitSafe(s, backend);
      Replay(s, SubmitTrace(s.fields, backend))
  }
}

=== FILE: history_drawer.dfy ===
/**
  The execution-history drawer of the dashboard: the two handlers that open
  and close it, and the content it shows for the selected task (one card per
  execution, newest first).
*/
module HistoryDrawer {
  import opened Wrappers
  import opened ApiTypes
  import opened JsSemantics
  import opened TaskStatus

  /** `isHistoryDrawerVisible` and `selectedTask`. */
  datatype DrawerState = DrawerState(visible: bool, selectedTask: Option<Task>)

  /** The state the dashboard starts in: hidden, nothing selected. */
  const Closed := DrawerState(false, None)

  /** The drawer is visible exactly when a task is selected. */
  predicate Consistent(d: DrawerState)
  {
    d.visible <==> d.selectedTask.Some?
  }

  /** `showHistoryDrawer(task)`. */
  function ShowHistoryDrawer(d: DrawerState, t: Task): (r: DrawerState)
    ensures Consistent(r)
    ensures r.visible && r.selectedTask == Some(t)
  {
    d.(selectedTask := Some(t)).(visible := true)
  }

  /** `closeHistoryDrawer()`: back to the initial state, from any state. */
  function CloseHistoryDrawer(d: DrawerState): (r: DrawerState)
    ensures Consistent(r)
    ensures r == Closed
  {
    d.(visible := false).(selectedTask := None)
  }

  /** Opening the drawer for one task and then another shows only the second. */
  lemma ShowReplacesSelection(d: DrawerState, first: Task, second: Task)
    ensures ShowHistoryDrawer(ShowHistoryDrawer(d, first), second) == ShowHistoryDrawer(d, second)
  {
  }

  /** One history card: the execution, its status tag, whether it shows
      "Still running..." instead of a duration, and the output text shown. */
  datatype HistoryCard = HistoryCard(
    execution: TaskExecution,
    tag: Tag,
    stillRunning: bool,
    outputShown: string)

  /** The card drawn for one execution. */
  function CardFor(e: TaskExecution): (c: HistoryCard)
    ensures c.execution == e
    ensures c.tag == TagFor(Classify(Some(e)))
    ensures c.stillRunning <==> Classify(Some(e)) == Running
    ensures Truthy(e.output) ==> c.outputShown == e.output.value
    ensures !Truthy(e.output) ==> c.outputShown == "(No output)"
  {
    HistoryCard(e, GetStatusTag(Some(e)), !Truthy(e.endTime), OrElse(e.output, "(No output)"))
  }

  /** What the drawer body holds: nothing without a selection, the
      "No execution history" placeholder for a task that never ran, or the
      cards. */
  datatype HistoryPanel = Blank | NoHistory | Cards(cards: seq<HistoryCard>)

  /** `selectedTask.taskExecutions.slice().reverse().map(...)`. */
  function HistoryContent(d: DrawerState): (p: HistoryPanel)
    ensures p.Blank? <==> d.selectedTask.None?
    ensures p.NoHistory? <==> d.selectedTask.Some? && |d.selectedTask.value.taskExecutions| == 0
    ensures p.Cards? ==>
      var execs := d.selectedTask.value.taskExecutions;
      && |p.cards| == |execs|
      && forall i :: 0 <= i < |execs| ==> p.cards[i] == CardFor(execs[|execs| - 1 - i])
  {
    match d.selectedTask
    case None => Blank
    case Some(t) =>
      if |t.taskExecutions| > 0 then
        var newestFirst := Reverse(t.taskExecutions);
        Cards(seq(|newestFirst|, i requires 0 <= i < |newestFirst| => CardFor(newestFirst[i])))
      else NoHistory
  }

  /** The executions behind a list of cards, in card order. */
  function CardExecutions(cards: seq<HistoryCard>): (es: seq<TaskExecution>)
    ensures |es| == |cards|
    ensures forall i :: 0 <= i < |cards| ==> es[i] == cards[i].execution
  {
    seq(|cards|, i requires 0 <= i < |cards| => cards[i].execution)
  }

  /** The cards list the selected task's executions in exactly reversed order:
      reading them bottom-up gives back the chronological history. */
  lemma CardsAreChronologyReversed(d: DrawerState, t: Task)
    requires |t.taskExecutions| > 0
    ensures HistoryContent(ShowHistoryDrawer(d, t)).Cards?
    ensures CardExecutions(HistoryContent(ShowHistoryDrawer(d, t)).cards) == Reverse(t.taskExecutions)
    ensures Reverse(CardExecutions(HistoryContent(ShowHistoryDrawer(d, t)).cards)) == t.taskExecutions
  {
    var cards := HistoryContent(ShowHistoryDrawer(d, t)).cards;
    assert CardExecutions(cards) == Reverse(t.taskExecutions);
    ReverseInvolution(t.taskExecutions);
  }

  /** The top card is the latest execution, so its tag is the one the task's
      row shows in the table's Status column. */
  lemma NewestCardMatchesRowStatus(d: DrawerState, t: Task)
    requires |t.taskExecutions| > 0
    ensures HistoryContent(ShowHistoryDrawer(d, t)).Cards?
    ensures HistoryContent(ShowHistoryDrawer(d, t)).cards[0].tag == GetStatusTag(LastExecution(t))
  {
  }
}

=== FILE: js_semantics.dfy ===
/**
  The few JavaScript built-ins the dashboard relies on, written out with
  their ECMAScript meaning: `Array.prototype.slice` with negative indices,
  out-of-range element access yielding `undefined`, `Array.prototype.filter`,
  `Array.prototype.reverse`, and the `x || d` idiom on optional strings.
*/
module JsSemantics {
  import opened Wrappers

  /** `Array.prototype.slice` / `String.prototype.slice` index normalisation:
      negative positions count from the end, and everything is clamped. */
  function RelativeIndex(len: nat, k: int): (r: nat)
    ensures r <= len
    ensures 0 <= k <= len ==> r == k
    ensures k < 0 && 0 <= len + k ==> r == len + k
  {
    if k < 0 then (if len + k < 0 then 0 else len + k)
    else if k > len then len
    else k
  }

  /** `s.slice(start, end)`. */
  function Slice<T>(s: seq<T>, start: int, end: int): (r: seq<T>)
    ensures |r| <= |s|
    ensures 0 <= start <= end <= |s| ==> r == s[start..end]
    ensures -|s| <= start < 0 && end == |s| ==> r == s[|s| + start..]
    ensures 0 <= end <= start ==> r == []
  {
    var from := RelativeIndex(|s|, start);
    var to := RelativeIndex(|s|, end);
    if to <= from then [] else s[from..to]
  }

  /** `s[i]`, which is `undefined` outside the sequence. */
  function ElementAt<T>(s: seq<T>, i: int): (r: Option<T>)
    ensures r.Some? <==> 0 <= i < |s|
    ensures r.Some? ==> r.value == s[i]
  {
    if 0 <= i < |s| then Some(s[i]) else None
  }

  /** JavaScript truthiness of an optional string: absent and `""` are falsy. */
  predicate Truthy(o: Option<string>)
  {
    o.Some? && o.value != ""
  }

  /** `o || d` for an optional string `o`. */
  function OrElse(o: Option<string>, d: string): (r: string)
    ensures Truthy(o) ==> r == o.value
    ensures !Truthy(o) ==> r == d
  {
    if o.Some? && |o.value| > 0 then o.value else d
  }

  /** `s.slice().reverse()`: a reversed copy. */
  function Reverse<T>(s: seq<T>): (r: seq<T>)
    ensures |r| == |s|
    ensures forall i :: 0 <= i < |s| ==> r[i] == s[|s| - 1 - i]
  {
    if |s| == 0 then [] else [s[|s| - 1]] + Reverse(s[..|s| - 1])
  }

  /** Reversing twice gives back the original order. */
  lemma {:induction false} ReverseInvolution<T>(s: seq<T>)
    ensures Reverse(Reverse(s)) == s
  {
    var r := Reverse(s);
    assert |Reverse(r)| == |s|;
    forall i | 0 <= i < |s|
      ensures Reverse(r)[i] == s[i]
    {
      assert Reverse(r)[i] == r[|s| - 1 - i];
    }
  }

  lemma MultisetCons<T>(s: seq<T>)
    requires |s| > 0
    ensures multiset(s) == multiset{s[0]} + multiset(s[1..])
  {
    assert s == [s[0]] + s[1..];
  }

  /** `a` is obtained from `b` by deleting elements, keeping the order. */
  ghost predicate IsSubsequence<T>(a: seq<T>, b: seq<T>)
    decreases |b|
  {
    if |a| == 0 then true
    else if |b| == 0 then false
    else (a[0] == b[0] && IsSubsequence(a[1..], b[1..])) || IsSubsequence(a, b[1..])
  }

  lemma {:induction false} SubsequenceReflexive<T>(s: seq<T>)
    ensures IsSubsequence(s, s)
    decreases |s|
  {
    if |s| > 0 {
      SubsequenceReflexive(s[1..]);
    }
  }

  /** `s.filter(p)`: the elements satisfying `p`, in their original order. */
  function Filter<T>(p: T -> bool, s: seq<T>): (r: seq<T>)
    ensures |r| <= |s|
    ensures IsSubsequence(r, s)
    ensures forall i :: 0 <= i < |r| ==> p(r[i])
    ensures forall i :: 0 <= i < |s| && p(s[i]) ==> s[i] in r
  {
    if |s| == 0 then []
    else
      var rest := Filter(p, s[1..]);
      assert s == [s[0]] + s[1..];
      if p(s[0]) then
        var r := [s[0]] + rest;
        assert r[1..] == rest;
        r
      else
        rest
  }

  /** `filter` keeps every copy of an accepted element and no copy of a
      rejected one. */
  lemma {:induction false} FilterMultiset<T>(p: T -> bool, s: seq<T>)
    ensures forall x :: multiset(Filter(p, s))[x] == if p(x) then multiset(s)[x] else 0
  {
    if |s| > 0 {
      FilterMultiset(p, s[1..]);
      MultisetCons(s);
      var rest := Filter(p, s[1..]);
      if p(s[0]) {
        assert Filter(p, s) == [s[0]] + rest;
      } else {
        assert Filter(p, s) == rest;
      }
    }
  }

  /** Filtering with a predicate that accepts everything changes nothing. */
  lemma {:induction false} FilterKeepsAll<T>(p: T -> bool, s: seq<T>)
    requires forall i :: 0 <= i < |s| ==> p(s[i])
    ensures Filter(p, s) == s
  {
    if |s| > 0 {
      FilterKeepsAll(p, s[1..]);
    }
  }
}

=== FILE: task_filter.dfy ===
/**
  The dashboard's status filter (`getFilteredTasks`) and its three summary
  counters (total, active, failed), all derived from a task's last execution.
*/
module TaskFilter {
  import opened ApiTypes
  import opened JsSemantics
  import opened TaskStatus

  /** The callback `getFilteredTasks` hands to `tasks.filter`, branch by branch;
      an unrecognised filter value keeps every task. */
  predicate PassesFilter(filterStatus: string, t: Task)
  {
    var lastExec := LastExecution(t);
    if filterStatus == "idle" then lastExec.None?
    else if filterStatus == "running" then lastExec.Some? && !HasEnded(lastExec.value)
    else if filterStatus == "success" then lastExec.Some? && HasEnded(lastExec.value) && !MentionsError(lastExec.value)
    else if filterStatus == "failed" then lastExec.Some? && HasEnded(lastExec.value) && MentionsError(lastExec.value)
    else true
  }

  /** The segmented control's value for each status. */
  function FilterName(s: Status): string
  {
    match s
    case Idle => "idle"
    case Running => "running"
    case Success => "success"
    case Failed => "failed"
  }

  /** Whether a filter value lets a task of status `s` through: a status
      filter selects its own status, any other value selects everything. */
  predicate Selects(filterStatus: string, s: Status)
  {
    filterStatus !in {"idle", "running", "success", "failed"} || filterStatus == FilterName(s)
  }

  lemma PassesFilterMeaning(filterStatus: string, t: Task)
    ensures PassesFilter(filterStatus, t) <==> Selects(filterStatus, StatusOfTask(t))
  {
  }

  /** `getFilteredTasks()`: with "all" the list itself, otherwise exactly the
      tasks whose status the filter selects, in their original order. */
  function GetFilteredTasks(filterStatus: string, tasks: seq<Task>): (r: seq<Task>)
    ensures filterStatus == "all" ==> r == tasks
    ensures IsSubsequence(r, tasks)
    ensures forall i :: 0 <= i < |r| ==> Selects(filterStatus, StatusOfTask(r[i]))
    ensures forall i :: 0 <= i < |tasks| && Selects(filterStatus, StatusOfTask(tasks[i])) ==> tasks[i] in r
  {
    if filterStatus == "all" then
      SubsequenceReflexive(tasks);
      tasks
    else
      assert forall t :: PassesFilter(filterStatus, t) <==> Selects(filterStatus, StatusOfTask(t)) by {
        forall t { PassesFilterMeaning(filterStatus, t); }
      }
      Filter((t: Task) => PassesFilter(filterStatus, t), tasks)
  }

  /** The filtered list holds every copy of each selected task and no copy of
      any other. */
  lemma GetFilteredTasksCounts(filterStatus: string, tasks: seq<Task>)
    ensures forall t :: multiset(GetFilteredTasks(filterStatus, tasks))[t]
                    == (if Selects(filterStatus, StatusOfTask(t)) then multiset(tasks)[t] else 0)
  {
    if filterStatus != "all" {
      var p := (t: Task) => PassesFilter(filterStatus, t);
      FilterMultiset(p, tasks);
      forall t ensures p(t) <==> Selects(filterStatus, StatusOfTask(t)) {
        PassesFilterMeaning(filterStatus, t);
      }
    }
  }

  /** Each task passes exactly one of the four status filters. */
  lemma ExactlyOneStatusFilter(t: Task)
    ensures PassesFilter(FilterName(StatusOfTask(t)), t)
    ensures forall s: Status :: s != StatusOfTask(t) ==> !PassesFilter(FilterName(s), t)
  {
  }

  /** A filter value outside the five offered ones keeps the list as it is. */
  lemma UnknownFilterKeepsAll(filterStatus: string, tasks: seq<Task>)
    requires filterStatus !in {"all", "idle", "running", "success", "failed"}
    ensures GetFilteredTasks(filterStatus, tasks) == tasks
  {
    FilterKeepsAll((t: Task) => PassesFilter(filterStatus, t), tasks);
  }

  /** Unfolds `GetFilteredTasks` by one task at the front of the list. */
  lemma FilteredCons(filterStatus: string, tasks: seq<Task>)
    requires filterStatus != "all" && |tasks| > 0
    ensures GetFilteredTasks(filterStatus, tasks)
         == (if PassesFilter(filterStatus, tasks[0]) then [tasks[0]] else [])
            + GetFilteredTasks(filterStatus, tasks[1..])
  {
  }

  /** The multiset of tasks the four status filters select between them. */
  ghost function SelectedByStatusFilters(tasks: seq<Task>): multiset<Task>
  {
    multiset(GetFilteredTasks("idle", tasks)) + multiset(GetFilteredTasks("running", tasks))
    + multiset(GetFilteredTasks("success", tasks)) + multiset(GetFilteredTasks("failed", tasks))
  }

  /** The first task of a list lands in exactly one status filter's result. */
  lemma SelectedByStatusFiltersCons(tasks: seq<Task>)
    requires |tasks| > 0
    ensures SelectedByStatusFilters(tasks)
         == multiset{tasks[0]} + SelectedByStatusFilters(tasks[1..])
  {
  }

  /** The idle, running, success and failed filters split any list: every task
      lands in exactly one of them. */
  lemma {:induction false} StatusFiltersPartition(tasks: seq<Task>)
    ensures SelectedByStatusFilters(tasks) == multiset(tasks)
  {
    if |tasks| > 0 {
      StatusFiltersPartition(tasks[1..]);
      SelectedByStatusFiltersCons(tasks);
      MultisetCons(tasks);
    }
  }

  /** So the sizes of the four status filters' results add up to the list's size. */
  lemma StatusFilterSizesSum(tasks: seq<Task>)
    ensures |GetFilteredTasks("idle", tasks)| + |GetFilteredTasks("running", tasks)|
          + |GetFilteredTasks("success", tasks)| + |GetFilteredTasks("failed", tasks)|
         == |tasks|
  {
    StatusFiltersPartition(tasks);
    assert |SelectedByStatusFilters(tasks)| == |multiset(tasks)|;
  }

  /** The `activeTasks` callback: the task has at least one execution. */
  function HasExecutions(t: Task): (r: bool)
    ensures r <==> StatusOfTask(t) != Idle
  {
    |t.taskExecutions| > 0
  }

  /** The `failedTasks` callback: the last execution ended and reports an error. */
  function LastRunFailed(t: Task): (r: bool)
    ensures r <==> StatusOfTask(t) == Failed
  {
    var lastExec := LastExecution(t);
    lastExec.Some? && HasEnded(lastExec.value) && MentionsError(lastExec.value)
  }

  lemma {:induction false} ActiveComplementsIdle(tasks: seq<Task>)
    ensures |Filter(HasExecutions, tasks)| + |GetFilteredTasks("idle", tasks)| == |tasks|
  {
    if |tasks| > 0 {
      ActiveComplementsIdle(tasks[1..]);
      FilteredCons("idle", tasks);
    }
  }

  lemma {:induction false} FailedCountIsFailedFilter(tasks: seq<Task>)
    ensures Filter(LastRunFailed, tasks) == GetFilteredTasks("failed", tasks)
  {
    if |tasks| > 0 {
      FailedCountIsFailedFilter(tasks[1..]);
      FilteredCons("failed", tasks);
    }
  }

  lemma {:induction false} FailedAtMostActive(tasks: seq<Task>)
    ensures |Filter(LastRunFailed, tasks)| <= |Filter(HasExecutions, tasks)|
  {
    if |tasks| > 0 {
      FailedAtMostActive(tasks[1..]);
    }
  }

  /** The three dashboard counters. */
  datatype Summary = Summary(total: nat, active: nat, failed: nat)

  /** `totalTasks`, `activeTasks` and `failedTasks`, as the dashboard computes
      them, and how they relate to the status filters. */
  function Summarize(tasks: seq<Task>): (s: Summary)
    ensures s.total == |tasks|
    ensures s.active == |tasks| - |GetFilteredTasks("idle", tasks)|
    ensures s.failed == |GetFilteredTasks("failed", tasks)|
    ensures s.failed <= s.active <= s.total
  {
    ActiveComplementsIdle(tasks);
    FailedCountIsFailedFilter(tasks);
    FailedAtMostActive(tasks);
    Summary(|tasks|, |Filter(HasExecutions, tasks)|, |Filter(LastRunFailed, tasks)|)
  }

  /** A single task that has never run: one task in total, none active or
      failed, tagged Idle and shown by the idle filter. */
  lemma SingleIdleTaskScenario()
    ensures var t := Task("1", "Backup", "alice", "tar -czf x", []);
      && Summarize([t]) == Summary(1, 0, 0)
      && GetStatusTag(LastExecution(t)).text == "Idle"
      && GetFilteredTasks("idle", [t]) == [t]
  {
    var t := Task("1", "Backup", "alice", "tar -czf x", []);
    assert GetFilteredTasks("idle", [t]) == [t] by {
      FilteredCons("idle", [t]);
      assert [t][1..] == [];
    }
  }
}

=== FILE: task_status.dfy ===
/**
  How the dashboard classifies a task from its last execution, and the two
  renderings of that classification: the status tag and the status icon.
*/
module TaskStatus {
  import opened Wrappers
  import opened ApiTypes
  import opened JsSemantics
  import opened TextSearch

  /** `task.taskExecutions?.slice(-1)[0]`: the final execution, if any. */
  function LastExecution(t: Task): (r: Option<TaskExecution>)
    ensures r.None? <==> |t.taskExecutions| == 0
    ensures r.Some? ==> r.value == t.taskExecutions[|t.taskExecutions| - 1]
  {
    var execs := t.taskExecutions;
    ElementAt(Slice(execs, -1, |execs|), 0)
  }

  /** `!exec.endTime` is false: an end time is present and non-empty. */
  predicate HasEnded(e: TaskExecution)
  {
    Truthy(e.endTime)
  }

  /** `exec.output || ""`. */
  function OutputText(e: TaskExecution): string
  {
    OrElse(e.output, "")
  }

  /** The failure heuristic: `/error/i.test(exec.output || "")`. */
  predicate MentionsError(e: TaskExecution)
  {
    TestIgnoringCase(OutputText(e), "error")
  }

  datatype Status = Idle | Running | Failed | Success

  /** The condition under which each status describes an (optional) last
      execution, stated directly on the fields rather than as a decision chain. */
  ghost predicate Describes(s: Status, e: Option<TaskExecution>)
  {
    match s
    case Idle => e.None?
    case Running => e.Some? && (e.value.endTime.None? || e.value.endTime == Some(""))
    case Failed =>
      && e.Some? && e.value.endTime.Some? && e.value.endTime.value != ""
      && e.value.output.Some? && ContainsIgnoringCase(e.value.output.value, "error")
    case Success =>
      && e.Some? && e.value.endTime.Some? && e.value.endTime.value != ""
      && !(e.value.output.Some? && ContainsIgnoringCase(e.value.output.value, "error"))
  }

  /** The decision chain shared by `getStatusTag` and `getStatusIcon`. */
  function Classify(e: Option<TaskExecution>): (s: Status)
    ensures Describes(s, e)
  {
    if e.None? then Idle
    else if !HasEnded(e.value) then Running
    else if MentionsError(e.value) then Failed
    else Success
  }

  /** The classification is total and exclusive: exactly one status describes
      any given last execution. */
  lemma ClassificationExclusive(e: Option<TaskExecution>, s: Status)
    ensures Describes(s, e) <==> s == Classify(e)
  {
  }

  function StatusOfTask(t: Task): Status
  {
    Classify(LastExecution(t))
  }

  /** An antd `<Tag>`: its text and optional colour. */
  datatype Tag = Tag(text: string, color: Option<string>)

  /** The tag each status is drawn with. */
  function TagFor(s: Status): Tag
  {
    match s
    case Idle => Tag("Idle", None)
    case Running => Tag("Running", Some("warning"))
    case Failed => Tag("Failed", Some("error"))
    case Success => Tag("Success", Some("success"))
  }

  /** `getStatusTag`. */
  function GetStatusTag(e: Option<TaskExecution>): (tag: Tag)
    ensures tag == TagFor(Classify(e))
  {
    if e.None? then Tag("Idle", None)
    else if !Truthy(e.value.endTime) then Tag("Running", Some("warning"))
    else if TestIgnoringCase(OrElse(e.value.output, ""), "error") then Tag("Failed", Some("error"))
    else Tag("Success", Some("success"))
  }

  datatype Glyph = ClockCircle | CloseCircle | CheckCircle

  /** An icon and its colour. */
  datatype Icon = Icon(glyph: Glyph, color: string)

  function IconFor(s: Status): Icon
  {
    match s
    case Idle => Icon(ClockCircle, "#999")
    case Running => Icon(ClockCircle, "#faad14")
    case Failed => Icon(CloseCircle, "#ff4d4f")
    case Success => Icon(CheckCircle, "#52c41a")
  }

  /** `getStatusIcon`. */
  function GetStatusIcon(e: Option<TaskExecution>): (icon: Icon)
    ensures icon == IconFor(Classify(e))
  {
    if e.None? then Icon(ClockCircle, "#999")
    else if !Truthy(e.value.endTime) then Icon(ClockCircle, "#faad14")
    else if TestIgnoringCase(OrElse(e.value.output, ""), "error") then Icon(CloseCircle, "#ff4d4f")
    else Icon(CheckCircle, "#52c41a")
  }

  /** Reads the status back from a tag's text. */
  function StatusOfTag(tag: Tag): Option<Status>
  {
    match tag.text
    case "Idle" => Some(Idle)
    case "Running" => Some(Running)
    case "Failed" => Some(Failed)
    case "Success" => Some(Success)
    case _ => None
  }

  /** Reads the status back from an icon; the two clock icons differ by colour. */
  function StatusOfIcon(icon: Icon): Option<Status>
  {
    match icon.glyph
    case CloseCircle => Some(Failed)
    case CheckCircle => Some(Success)
    case ClockCircle => if icon.color == "#999" then Some(Idle) else Some(Running)
  }

  /** The icon and the tag shown for the same execution always name the same
      status, and that status is the classification. */
  lemma TagAndIconAgree(e: Option<TaskExecution>)
    ensures StatusOfTag(GetStatusTag(e)) == Some(Classify(e))
    ensures StatusOfIcon(GetStatusIcon(e)) == Some(Classify(e))
  {
  }

  /** Matching ignores case: upper-case "ERROR" marks a run as failed. */
  lemma UpperCaseErrorFails()
    ensures Classify(Some(TaskExecution(None, Some("t"), Some("ERROR: disk full")))) == Failed
  {
    var e := Some(TaskExecution(None, Some("t"), Some("ERROR: disk full")));
    assert OccursAtIgnoringCase("ERROR: disk full", "error", 0);
    ClassificationExclusive(e, Failed);
  }

  /** The heuristic also fires on "error" inside a longer word. */
  lemma ErrorInsideWordFails()
    ensures Classify(Some(TaskExecution(None, Some("t"), Some("no terrors")))) == Failed
  {
    var e := Some(TaskExecution(None, Some("t"), Some("no terrors")));
    assert OccursAtIgnoringCase("no terrors", "error", 4);
    ClassificationExclusive(e, Failed);
  }

  /** A broken-up word does not match. */
  lemma SplitWordSucceeds()
    ensures Classify(Some(TaskExecution(None, Some("t"), Some("err or")))) == Success
  {
    var s := "err or";
    var e := Some(TaskExecution(None, Some("t"), Some(s)));
    assert !OccursAtIgnoringCase(s, "error", 0) by {
      assert AsciiFold(s[3]) != AsciiFold("error"[3]);
    }
    assert !OccursAtIgnoringCase(s, "error", 1) by {
      assert AsciiFold(s[1]) != AsciiFold("error"[0]);
    }
    ClassificationExclusive(e, Success);
  }

  /** An ended run with no output at all is a success. */
  lemma MissingOutputSucceeds(start: Option<string>, end: string)
    requires end != ""
    ensures Classify(Some(TaskExecution(start, Some(end), None))) == Success
  {
    ClassificationExclusive(Some(TaskExecution(start, Some(end), None)), Success);
  }

  /** An empty end time is falsy: the run still counts as running, whatever its output. */
  lemma EmptyEndTimeIsRunning(start: Option<string>, output: Option<string>)
    ensures Classify(Some(TaskExecution(start, Some(""), output))) == Running
  {
    ClassificationExclusive(Some(TaskExecution(start, Some(""), output)), Running);
  }
}

=== FILE: text_search.dfy ===
/**
  Substring tests on strings: the case-sensitive `String.prototype.includes`
  and the case-insensitive `/pattern/i.test` of a literal pattern. Without the
  `u` flag, a case-insensitive regular expression folds characters through
  upper-casing, and no non-ASCII character folds onto an ASCII letter, so for
  a pattern made of ASCII letters the ASCII folding below is exact.
*/
module TextSearch {

  /** `pat` occurs in `s` starting at position `i`. */
  predicate OccursAt(s: string, pat: string, i: nat)
  {
    i + |pat| <= |s| && s[i..i + |pat|] == pat
  }

  ghost predicate Contains(s: string, pat: string)
  {
    exists i: nat :: OccursAt(s, pat, i)
  }

  lemma OccursAtShift(s: string, pat: string, i: nat)
    requires |s| > 0
    ensures OccursAt(s[1..], pat, i) <==> OccursAt(s, pat, i + 1)
  {
    if i + 1 + |pat| <= |s| {
      assert s[1..][i..i + |pat|] == s[i + 1..i + 1 + |pat|];
    }
  }

  /** A pattern cannot occur where its first character never appears. */
  lemma FirstCharAbsent(s: string, pat: string)
    requires |pat| > 0 && pat[0] !in s
    ensures !Contains(s, pat)
  {
    forall i: nat | i + |pat| <= |s|
      ensures !OccursAt(s, pat, i)
    {
      assert s[i..i + |pat|][0] == s[i];
    }
  }

  /** Where there is room for `pat`, it occurs in `s` exactly when it is a
      prefix of `s` or occurs in the tail. */
  lemma ContainsStep(s: string, pat: string)
    requires |pat| <= |s| && 0 < |s|
    ensures Contains(s, pat) <==> s[..|pat|] == pat || Contains(s[1..], pat)
  {
    if s[..|pat|] == pat {
      assert OccursAt(s, pat, 0);
    }
    if Contains(s[1..], pat) {
      var i: nat :| OccursAt(s[1..], pat, i);
      OccursAtShift(s, pat, i);
    }
    if Contains(s, pat) && s[..|pat|] != pat {
      var i: nat :| OccursAt(s, pat, i);
      assert i != 0;
      OccursAtShift(s, pat, i - 1);
    }
  }

  /** `s.includes(pat)`. */
  function Includes(s: string, pat: string): (r: bool)
    ensures r <==> Contains(s, pat)
    decreases |s|
  {
    if |s| < |pat| then
      false
    else if s[..|pat|] == pat then
      assert OccursAt(s, pat, 0);
      true
    else
      ContainsStep(s, pat);
      Includes(s[1..], pat)
  }

  /** ASCII case folding (upper-case letters to lower-case). */
  function AsciiFold(c: char): (d: char)
    ensures 'A' <= c <= 'Z' ==> 'a' <= d <= 'z' && d as int == c as int + 32
    ensures !('A' <= c <= 'Z') ==> d == c
  {
    if 'A' <= c <= 'Z' then (c as int + 32) as char else c
  }

  function FoldAll(s: string): (r: string)
    ensures |r| == |s|
    ensures forall i :: 0 <= i < |s| ==> r[i] == AsciiFold(s[i])
  {
    seq(|s|, i requires 0 <= i < |s| => AsciiFold(s[i]))
  }

  /** `pat` occurs at position `i` of `s` when both are read without case. */
  predicate OccursAtIgnoringCase(s: string, pat: string, i: nat)
  {
    i + |pat| <= |s| && forall k :: 0 <= k < |pat| ==> AsciiFold(s[i + k]) == AsciiFold(pat[k])
  }

  ghost predicate ContainsIgnoringCase(s: string, pat: string)
  {
    exists i: nat :: OccursAtIgnoringCase(s, pat, i)
  }

  lemma FoldedOccurrence(s: string, pat: string, i: nat)
    ensures OccursAt(FoldAll(s), FoldAll(pat), i) <==> OccursAtIgnoringCase(s, pat, i)
  {
    var fs, fp := FoldAll(s), FoldAll(pat);
    if i + |pat| <= |s| {
      if OccursAt(fs, fp, i) {
        forall k | 0 <= k < |pat|
          ensures AsciiFold(s[i + k]) == AsciiFold(pat[k])
        {
          assert fs[i..i + |pat|][k] == fp[k];
        }
      }
      if OccursAtIgnoringCase(s, pat, i) {
        assert fs[i..i + |pat|] == fp;
      }
    }
  }

  lemma FoldedContains(s: string, pat: string)
    ensures Contains(FoldAll(s), FoldAll(pat)) <==> ContainsIgnoringCase(s, pat)
  {
    if Contains(FoldAll(s), FoldAll(pat)) {
      var i: nat :| OccursAt(FoldAll(s), FoldAll(pat), i);
      FoldedOccurrence(s, pat, i);
    }
    if ContainsIgnoringCase(s, pat) {
      var i: nat :| OccursAtIgnoringCase(s, pat, i);
      FoldedOccurrence(s, pat, i);
    }
  }

  lemma OccursAtIgnoringCaseShift(s: string, pat: string, i: nat)
    requires |s| > 0
    ensures OccursAtIgnoringCase(s[1..], pat, i) <==> OccursAtIgnoringCase(s, pat, i + 1)
  {
    if OccursAtIgnoringCase(s, pat, i + 1) {
      forall k | 0 <= k < |pat|
        ensures AsciiFold(s[1..][i + k]) == AsciiFold(pat[k])
      {
        assert s[1..][i + k] == s[i + 1 + k];
      }
    }
  }

  /** The case-insensitive counterpart of `ContainsStep`. */
  lemma ContainsIgnoringCaseStep(s: string, pat: string)
    requires |pat| <= |s| && 0 < |s|
    ensures ContainsIgnoringCase(s, pat) <==> OccursAtIgnoringCase(s, pat, 0) || ContainsIgnoringCase(s[1..], pat)
  {
    if ContainsIgnoringCase(s[1..], pat) {
      var i: nat :| OccursAtIgnoringCase(s[1..], pat, i);
      OccursAtIgnoringCaseShift(s, pat, i);
    }
    if ContainsIgnoringCase(s, pat) && !OccursAtIgnoringCase(s, pat, 0) {
      var i: nat :| OccursAtIgnoringCase(s, pat, i);
      assert i != 0;
      OccursAtIgnoringCaseShift(s, pat, i - 1);
    }
  }

  /** `/pat/i.test(s)` for a pattern made of literal characters: the regular
      expression engine tries each start position in turn. */
  function TestIgnoringCase(s: string, pat: string): (r: bool)
    ensures r <==> ContainsIgnoringCase(s, pat)
    decreases |s|
  {
    if |s| < |pat| then
      false
    else if OccursAtIgnoringCase(s, pat, 0) then
      true
    else
      ContainsIgnoringCaseStep(s, pat);
      TestIgnoringCase(s[1..], pat)
  }

  /** Case-insensitive search is case-sensitive search after folding both
      sides to lower case. */
  lemma TestIgnoringCaseIsFoldedIncludes(s: string, pat: string)
    ensures TestIgnoringCase(s, pat) == Includes(FoldAll(s), FoldAll(pat))
  {
    FoldedContains(s, pat);
  }
}

=== FILE: wrappers.dfy ===
/** Optional values, standing for TypeScript's `T | undefined` (and `T | null`). */
module Wrappers {

  datatype Option<+T> = None | Some(value: T)
}
